=== FILE: README.md ===
# CocoQuery task engine — a Dafny model

CocoQuery is an android library. It has two parts that make decisions.

- `CocoTask` wraps an android `AsyncTask`. It runs `pre()` on the main thread, then `backgroundWork()` on a worker. Back on the main thread it delivers the result to `callback` or `failcallback`, but only while the owning activity is still usable. Then it hides the progress indicator and runs `end()`. A progress target (a view, a ProgressBar, a dialog or the activity's own busy indicator), a ProgressDialog and a foreground view can be attached to it.
- `CocoQuery` picks the context and the view hierarchy it works against. It also keeps a pool of the tasks it started (`taskpool`) and can cancel all of them (`CleanAllTask`).

The model is functional.

- A task is an immutable record (`CocoTask.Task`). It holds the builder configuration, the owner slot, the `AsyncTask` it created (`Job`: status, cancelled flag, background phase) and the `running` flag.
- Each main-thread step is a pure function that returns a `Step`. A `Step` holds the new task, the events the step produced (`Pre`, `Callback(r)`, `FailCallback(r, e)`, `ShowProgress(b)`, `End`) and the exception that escaped it, if any.
- The worker is the single step `Background`. An oracle `Work` decides whether `backgroundWork()` returns a value or throws an `Exception`.
- A `set<Hook>` names the user hooks that throw.
- Null references are `Option`s.
- The owner's weak reference is the enum `Owner`: `NoOwner`, `Alive`, `Finishing` or `Reclaimed`.
- A weakly held progress target whose referent is gone is `Progress.Released`.
- The pool is a `WeakHashMap`. It holds its boxed integer keys weakly and its tasks strongly, so an entry disappears when its key is collected. An entry the weak map has dropped is a key absent from `Query.pool`. `CleanAllTask` receives the task objects the pool names as a map `tasks`. Its `id in tasks` test stands for the null check on each value.

Modules:
- `Progress`: the target kinds and the static dispatcher.
- `CocoTask`: the task state machine.
- `TaskProperties`: whole runs, and arbitrary interleavings of `cancel()` calls and owner teardown between start and completion.
- `CocoQuery`: context and view lookup, and the pool.
- `QueryProperties`: properties of the query.
- `Wrappers`: `Option` and `Result`.

Behaviours of the code that the model keeps, and that the lemmas pin down:

- The result hook runs before progress is hidden. The hide and `end()` sit in the `finally` block. `running` is cleared only when no hook threw (`PostExecute`, `ThrowingCallbackKeepsRunning`).
- The `onPostExecute` body consults the cancelled flag only before `callback`. When it runs on a cancelled AsyncTask, `failcallback` still fires after a background exception (`FailCallbackIgnoresCancel`). `failcallback` always receives a null result.
- A determinate ProgressBar is not hidden by `showProgress(false)` (`Progress.ShowThenHide`, `SuccessfulRun`).
- `async(Context)` never records an owner. `showProgress` then dereferences the null owner reference, so every start through that path of a task that was never started through `async(Activity)` raises before `pre()` runs. A task whose owner an earlier `async(Activity)` recorded keeps that owner and starts normally. The model treats this as the `NullPointer` outcome (`ContextStartAlwaysFails`, `SubmitPathDecidesOutcome`).
- `runtask` receives a Context that may be null (`getContext()` of a query built on a null Context). `onPreExecute` builds the requested dialog from it, so with a dialog requested the start raises before progress is shown (`RunTask`, `NullContextDialogFails`).
- The field `dialogdeterminate` holds the *indeterminate* flag. Its name is inverted, but its effect is consistent: the default dialog is indeterminate, and `determinate()` makes it determinate (`DeterminateDialog`).

Behaviours of the code a reader might not expect:
- Starting a task that is already running is not rejected. A new `AsyncTask` replaces the old one without cancelling it (`ResubmissionReplacesJob`). The old one still completes against the shared task. It delivers its result, hides the new run's progress and dialog, and clears `running` while the new AsyncTask is in flight (`ReplacedJobStillCompletes`). If the task requested a dialog, the second start builds a new dialog and drops the reference to the first one, which nothing dismisses. Clicking a view bound to a task starts that same task object again on every click.
- Builder calls made after the start still take effect (`ViewSetAfterStartIsHonoured`).
- When the owner finishes before completion and `onPostExecute` runs, the hide returns early, so progress stays shown (`OwnerGoneRun`).

## Model

| member | source | states |
|---|---|---|
| Progress.Apply | query/src/main/java/com/cocosw/query/CocoTask.java:325-367 | The static dispatcher keeps the target's kind. Show makes a view VISIBLE; a ProgressBar also gets progress 0 and max 100. Hide sets a view GONE unless it is a determinate ProgressBar, which is left untouched. A dialog ends showing exactly when `show`. Both activity busy flags equal `show`, and show resets its progress to 0. A released (null) target is unchanged. |
| Progress.ShowThenHide | query/src/main/java/com/cocosw/query/CocoTask.java:337-347 | After show then hide, every target is hidden except a determinate ProgressBar, which stays visible. |
| Progress.ApplyIdempotent | query/src/main/java/com/cocosw/query/CocoTask.java:325-367 | Repeating a show or hide request changes nothing more. |
| CocoTask.NewTask | query/src/main/java/com/cocosw/query/CocoTask.java:24-43 | A new task has no AsyncTask, no owner, no dialog and no dialog request. It is not running, not cancelable and indeterminate by default. |
| CocoTask.SetProgress | query/src/main/java/com/cocosw/query/CocoTask.java:117-149 | `progress(...)` with a non-null target replaces the target. With null it leaves the task unchanged. It never touches the lifecycle fields. |
| CocoTask.SetView | query/src/main/java/com/cocosw/query/CocoTask.java:263-266 | `view(...)` sets the foreground view, and null clears it. Nothing else changes. |
| CocoTask.SetDialog | query/src/main/java/com/cocosw/query/CocoTask.java:300-303 | `dialog(resId)` records the message id. The other dialog options and the lifecycle are unchanged. |
| CocoTask.SetCancelable | query/src/main/java/com/cocosw/query/CocoTask.java:310-313 | `cancelable()` makes the dialog cancelable. Nothing else changes. |
| CocoTask.SetDeterminate | query/src/main/java/com/cocosw/query/CocoTask.java:320-323 | `determinate()` clears the indeterminate flag. Nothing else changes. |
| CocoTask.IsActive | query/src/main/java/com/cocosw/query/CocoTask.java:85-97 | True exactly when no owner was recorded or the owner is alive. False when the owner is finishing or reclaimed. |
| CocoTask.IsRunning | query/src/main/java/com/cocosw/query/CocoTask.java:379-381 | Reports the running flag. |
| CocoTask.DispatchTarget | query/src/main/java/com/cocosw/query/CocoTask.java:235-237 | A configured progress target goes through the static dispatcher. Without one, nothing happens. |
| CocoTask.ToggleDialog | query/src/main/java/com/cocosw/query/CocoTask.java:238-250 | The dialog ends showing exactly when `show`. It is shown only if it was not showing and dismissed only if it was showing. A dialog already in the requested state is untouched. |
| CocoTask.Foreground | query/src/main/java/com/cocosw/query/CocoTask.java:251-254 | The foreground view is VISIBLE exactly when progress is hidden. It is never GONE. |
| CocoTask.ShowProgressOf | query/src/main/java/com/cocosw/query/CocoTask.java:231-255 | Raises a null dereference exactly when no owner was recorded. Does nothing when the owner is finishing or reclaimed. Otherwise it updates target, dialog and view as above. It never touches configuration or lifecycle. |
| CocoTask.BuildDialog | query/src/main/java/com/cocosw/query/CocoTask.java:208-216 | The dialog carries the message id, the cancelable option and the indeterminate flag. It has a cancel listener exactly when it is cancelable, and it starts hidden. |
| CocoTask.RunTask | query/src/main/java/com/cocosw/query/CocoTask.java:167-229 | Creates a RUNNING, uncancelled AsyncTask. A requested dialog with a null Context raises before anything is shown: no events, dialog, progress and view unchanged. Otherwise it builds the dialog if one was requested, shows progress and runs `pre()`. With a live owner, the progress target goes through the dispatcher's show and the foreground view becomes INVISIBLE. With any other owner both are untouched. The worker is queued and `running` set exactly when the Context is usable for the dialog, the task has an owner and `pre()` does not throw. Without an owner it raises at the show, before `pre()`. |
| CocoTask.AsyncActivity | query/src/main/java/com/cocosw/query/CocoTask.java:158-165 | Records the owner. A finishing owner gets no events and no new AsyncTask, and `running` is unchanged. A live owner's start is exactly `runtask` with the activity as a non-null Context. That start creates a fresh RUNNING AsyncTask, queued unless `pre()` throws. It builds and shows the requested dialog, shows the progress target and hides the foreground view. The task is running unless `pre()` throws. |
| CocoTask.AsyncContext | query/src/main/java/com/cocosw/query/CocoTask.java:383-385 | Leaves the owner as it was. With no owner recorded it raises, `pre()` never runs and `running` is unchanged. With a null Context and a requested dialog it raises with no events. It completes normally iff neither happens and `pre()` does not throw, and then the task is running. |
| CocoTask.Background | query/src/main/java/com/cocosw/query/CocoTask.java:196-204 | The worker records backgroundWork's value. If it threw, the exception is captured and the result is null. Status and cancel flag are unchanged. |
| CocoTask.CompletionHook | query/src/main/java/com/cocosw/query/CocoTask.java:175-187 | `callback` is chosen exactly for a clean, uncancelled run with an active owner. `failcallback` is chosen exactly for a captured exception with an active owner. No other hook is chosen. |
| CocoTask.Dispatch | query/src/main/java/com/cocosw/query/CocoTask.java:174-187 | The try block fires exactly `[Callback(result)]` for a clean, uncancelled run with an active owner. It fires exactly `[FailCallback(result, e)]` after an exception with an active owner. It fires nothing when the owner is inactive or a clean run was cancelled. |
| CocoTask.Finally | query/src/main/java/com/cocosw/query/CocoTask.java:188-192 | The finally block emits a hide then `end()`. It stops after the hide with a null dereference when no owner was recorded. It raises `end()`'s exception when `end()` throws. Only a live owner's progress, dialog and view are hidden. |
| CocoTask.Complete | query/src/main/java/com/cocosw/query/CocoTask.java:173-193 | The body of `onPostExecute` for any AsyncTask, including one a later start replaced. The hook is chosen from that AsyncTask's outcome and cancel flag, and the owner's state. With an owner, the events are exactly the try block's event, then the hide, then `end()`. An inactive owner gets only the hide and `end()`. It completes normally iff there is an owner and neither `end()` nor the invoked hook throws, and only then clears `running`. The task's own AsyncTask slot is untouched. |
| CocoTask.PostExecute | query/src/main/java/com/cocosw/query/CocoTask.java:173-194 | Completion of the task's current AsyncTask. Callback appears iff the run was clean, uncancelled and active. Failcallback appears after an exception iff the owner is active. With an owner the events are exactly the try block's event, then the hide, then `end()`, so `end()` runs once and an inactive owner gets no hook. It completes normally iff there is an owner and neither `end()` nor the invoked hook throws. Only then is `running` cleared and the AsyncTask FINISHED. |
| CocoTask.Cancel | query/src/main/java/com/cocosw/query/CocoTask.java:271-276 | No-op without an AsyncTask, when already cancelled, or when finished. Otherwise it sets only the cancelled flag of the running AsyncTask. |
| CocoTask.OnCancel | query/src/main/java/com/cocosw/query/CocoTask.java:278-281 | The dialog's cancel listener is `cancel()`. |
| TaskProperties.CompletionTrace | query/src/main/java/com/cocosw/query/CocoTask.java:173-194 | A completion's events are the try block's events followed by the finally block's. |
| TaskProperties.AtMostOneResultHook | query/src/main/java/com/cocosw/query/CocoTask.java:173-192 | In any completion, a result hook can only be the first event, so at most one of `callback` and `failcallback` fires, once. |
| TaskProperties.FailCallbackIgnoresCancel | query/src/main/java/com/cocosw/query/CocoTask.java:182-186 | When `onPostExecute` runs on a cancelled AsyncTask after a background exception, `failcallback(null, e)` fires for an active owner and `callback` does not. |
| TaskProperties.CancelSuppressesCallback | query/src/main/java/com/cocosw/query/CocoTask.java:175-192 | When `onPostExecute` runs on a cancelled AsyncTask after a clean run, no result hook fires; its finally block still hides progress and runs `end()`. |
| TaskProperties.Configured | query/src/main/java/com/cocosw/query/CocoTask.java:117-122 | The builder chain `progress(target).view(v)` on a new task sets exactly those two slots. |
| TaskProperties.SuccessfulRun | query/src/main/java/com/cocosw/query/CocoTask.java:158-194 | A run against a live owner produces exactly show, pre, callback(v), hide, end, and ends not running. Progress and foreground view are swapped at start and swapped back at the end. Only a determinate ProgressBar stays shown. |
| TaskProperties.FailingRun | query/src/main/java/com/cocosw/query/CocoTask.java:182-204 | A throwing background run against a live owner produces exactly show, pre, failcallback(null, e), hide, end. |
| TaskProperties.ThrowingCallbackKeepsRunning | query/src/main/java/com/cocosw/query/CocoTask.java:174-193 | A throwing `callback` still gets the hide and `end()`, but the task stays marked running. |
| TaskProperties.FinishingOwnerStartsNothing | query/src/main/java/com/cocosw/query/CocoTask.java:158-162 | `async(Activity)` with a finishing owner only records the owner. |
| TaskProperties.ContextStartAlwaysFails | query/src/main/java/com/cocosw/query/CocoTask.java:231-232 | A fresh task started through `async(Context)`, with or without a Context, raises at the first showProgress. Its AsyncTask is left RUNNING but never dispatched, and the task is not running. |
| TaskProperties.ResubmissionReplacesJob | query/src/main/java/com/cocosw/query/CocoTask.java:158-168 | Starting a running task again is not rejected, whatever state its AsyncTask is in. A fresh AsyncTask replaces the old one, which is not cancelled. |
| TaskProperties.ReplacedJobStillCompletes | query/src/main/java/com/cocosw/query/CocoTask.java:158-194 | After a second start, the replaced AsyncTask's `onPostExecute` still runs against the shared task. It delivers the old result to `callback`, hides the new run's progress, dismisses the dialog the second start built, runs `end()` and clears `running` while the new AsyncTask is still queued. The new run then delivers a second callback. The first dialog, which the second start replaced while it was showing, is not represented (see `CocoTask.RunTask` under Left out). |
| TaskProperties.DeterminateDialog | query/src/main/java/com/cocosw/query/CocoTask.java:208-211 | The dialog built at start is indeterminate by default and determinate after `determinate()`. A finishing owner builds none. |
| TaskProperties.CancelableDialogCancelsTask | query/src/main/java/com/cocosw/query/CocoTask.java:210-215 | The started dialog is showing. It has a cancel listener exactly when `cancelable()` was called, and firing the listener cancels the task. |
| TaskProperties.ViewSetAfterStartIsHonoured | query/src/main/java/com/cocosw/query/CocoTask.java:251-266 | A foreground view attached after the start is made VISIBLE at completion. |
| TaskProperties.CancelKeepsTask | query/src/main/java/com/cocosw/query/CocoTask.java:271-276 | `cancel()` changes nothing but the AsyncTask's cancelled flag. |
| TaskProperties.CancelIdempotent | query/src/main/java/com/cocosw/query/CocoTask.java:271-281 | Calling `cancel()` or `onCancel()` twice is the same as calling `cancel()` once. |
| TaskProperties.InterventionsKeepWork | query/src/main/java/com/cocosw/query/CocoTask.java:271-276 | No sequence of cancels and owner teardowns touches configuration, progress state, background phase, AsyncTask status or `running`. |
| TaskProperties.OwnerEndIsSticky | query/src/main/java/com/cocosw/query/CocoTask.java:85-97 | Once the owner has started finishing or been reclaimed, the task stays inactive through any later sequence. |
| TaskProperties.CancelIsSticky | query/src/main/java/com/cocosw/query/CocoTask.java:271-276 | A cancel issued while the AsyncTask runs survives any later sequence. |
| TaskProperties.FinishedTaskIgnoresCancel | query/src/main/java/com/cocosw/query/CocoTask.java:272-273 | No sequence of cancels changes a finished AsyncTask. |
| TaskProperties.OwnerGoneRun | query/src/main/java/com/cocosw/query/CocoTask.java:173-192 | If the owner finishes or is reclaimed at any point before completion, the `onPostExecute` body fires no result hook. The hide and `end()` still run and the task stops running. Because showProgress returns early, progress stays shown and the foreground view stays INVISIBLE. When a `cancel()` in the sequence reached the running AsyncTask, the program runs `onCancelled` instead, and none of this happens. |
| CocoQuery.FromActivity | query/src/main/java/com/cocosw/query/CocoQuery.java:41-43 | Sets only the activity; the pool starts empty. |
| CocoQuery.FromView | query/src/main/java/com/cocosw/query/CocoQuery.java:50-52 | Sets only the root; the pool starts empty. |
| CocoQuery.FromActivityAndView | query/src/main/java/com/cocosw/query/CocoQuery.java:60-63 | Sets the activity and the root; the pool starts empty. |
| CocoQuery.FromContext | query/src/main/java/com/cocosw/query/CocoQuery.java:72-74 | Sets only the context; the pool starts empty. |
| CocoQuery.GetContext | query/src/main/java/com/cocosw/query/CocoQuery.java:83-91 | Returns the activity if one is set. Otherwise it returns the root's context if a root is set. Otherwise it returns the constructor's context, which may be null. |
| CocoQuery.FindViewById | query/src/main/java/com/cocosw/query/CocoQuery.java:164-172 | The lookup the query delegates to returns a view in the subtree with the requested id, starting with the root itself. It returns null only when no view in the subtree has that id. Which view it returns among several with that id is stated by `QueryProperties.FindsFirstInPreOrder`. |
| CocoQuery.FindInChildren | query/src/main/java/com/cocosw/query/CocoQuery.java:164-172 | The same search over the remaining children of a view. |
| QueryProperties.FindsFirstInPreOrder | query/src/main/java/com/cocosw/query/CocoQuery.java:164-172 | With duplicate ids, the view found is the first in the subtree's pre-order: the view itself, then each child's subtree from left to right. |
| QueryProperties.ChildrenFindFirstInPreOrder | query/src/main/java/com/cocosw/query/CocoQuery.java:164-172 | The search over the remaining children finds the first match in their concatenated pre-orders. |
| CocoQuery.FindView | query/src/main/java/com/cocosw/query/CocoQuery.java:164-172 | With a root set, it searches only the root, and the result is null iff the id is absent there. Otherwise it searches the activity's content the same way. With neither set, the result is null. |
| CocoQuery.Recycle | query/src/main/java/com/cocosw/query/CocoQuery.java:118-121 | Replaces the root with the given view, or clears it for null. Keeps the activity, context and pool. |
| CocoQuery.SubmitTask | query/src/main/java/com/cocosw/query/CocoQuery.java:372-379 | Stores the task under its key, replacing any earlier entry, and leaves the rest of the query alone. With an activity, the start is exactly `async(Activity)`, and the owner is that activity. Without one, the start is exactly `async(Context)` with `getContext()`. That start raises for a task with no owner, and for a requested dialog when the context is null. The pool entry is kept either way. |
| CocoQuery.CleanAllTask | query/src/main/java/com/cocosw/query/CocoQuery.java:388-395 | Returns the same query. Every task the pool refers to is cancelled, and every other task is unchanged. Entries the weak map has already dropped are not in the pool, so their tasks are not touched. |
| QueryProperties.ContextPrecedence | query/src/main/java/com/cocosw/query/CocoQuery.java:83-91 | The activity outranks the root, which outranks the plain context. |
| QueryProperties.RootShadowsActivity | query/src/main/java/com/cocosw/query/CocoQuery.java:164-172 | With both a root and an activity, a view present only in the activity is not found. With the activity alone it is found. |
| QueryProperties.ContextQueryFindsNothing | query/src/main/java/com/cocosw/query/CocoQuery.java:164-172 | A query built on a plain context finds no view. |
| QueryProperties.RecycleRedirects | query/src/main/java/com/cocosw/query/CocoQuery.java:118-121 | After `recycle(v)`, view lookup searches `v`. `getContext()` becomes `v`'s context unless an activity is set. After `recycle(null)`, lookup falls back to the activity's content, or finds nothing. `getContext()` falls back to the activity, or to the constructor's context. |
| QueryProperties.SameKeyReplaces | query/src/main/java/com/cocosw/query/CocoQuery.java:372-373 | A second task under an equal key replaces the first. The pool's keys and size are unchanged, and so are the other entries. |
| QueryProperties.SubmitPathDecidesOutcome | query/src/main/java/com/cocosw/query/CocoQuery.java:372-379 | A fresh task submitted to a view-rooted query raises and is not running, but is pooled. Through a live activity it shows progress, runs `pre()` and is running. |
| QueryProperties.NullContextDialogFails | query/src/main/java/com/cocosw/query/CocoQuery.java:372-379 | A task with a live owner and a requested dialog, submitted to a query built on a null Context, raises with no events and is not running, but is pooled. With a non-null Context the same task starts and is running. |

## Left out

- Threads and the executor (`CocoTask.java:375-377`). The worker is the single step `Background`, and main-thread steps run one after another. No interleaving of different tasks is modelled.
- The android framework's own dispatch around the task is not part of this model. `AsyncTask` calls `onCancelled` instead of `onPostExecute` for a cancelled task. `PostExecute` and `Complete` model the method body as written, for any state it is invoked in. That body is where the cancelled flag is consulted.
- A cancelled task in the running program therefore never hides its progress or dialog and never runs `end()`. It also stays marked running, because `onCancelled` is not overridden. The model does not state these consequences.
- Setting FINISHED only after `onPostExecute` returns normally is the framework's behaviour, and the model takes it as given.
- Weak references, `WeakHashMap` expiry and `finalize` (`CocoQuery.java:397-401`) are not modelled as collection. Instead, owners, targets and pool entries may be absent, as described above.
- `hashCode` (`CocoTask.java:46-51`) is not modelled. It uses `Math.random` while the task has no AsyncTask, and otherwise the AsyncTask's hash. It also mixes in the identity hash of the task's weak reference to its owner, and `async(Activity)` creates a new reference object on every call. So a task started again usually gets a new key and sits in the pool under both. The pool key is therefore a free parameter of `SubmitTask`.
- `run()` (`CocoTask.java:100-109`) is package-private and nothing in the repository calls it.
- `progressUpdate`, `onProgressUpdate` and `updateDialogMsg` are widget plumbing. They parse progress strings and look up message text.
- `e.printStackTrace()` is I/O.
- The `catch (Throwable)` around the dialog calls (`CocoTask.java:239-249`) is not modelled. The dialog's show and dismiss are modelled as always succeeding.
- CocoQuery's reflective view-query construction (`v`, `id`, `create`, `getConstructor`, `setQueryClass`) is Java reflection.
- The toasts, alerts, confirm and list dialogs, and `startActivity*` only present UI.
- `AbstractViewQuery.java`, `ExtViewQuery.java` and the example activity are not part of this model.
- CocoQuery.FindViewById: the toolkit's `findViewById` is modelled as a pre-order search of a view tree. Its special handling of the "no id" value is not modelled.
- CocoTask.RunTask: a task holds one dialog. When a start replaces a dialog that is still showing, the model forgets the old one. In the program it stays on screen, because nothing dismisses it. If it is cancelable, its listener still cancels the task's current AsyncTask. The model does not count such orphaned dialogs.
- CocoQuery.CleanAllTask: each distinct task is visited once. The source visits it once per pool entry, which is the same by `TaskProperties.CancelIdempotent`.
- CocoTask.Background: only an `Exception` from `backgroundWork()` is captured (`CocoTask.java:198-203`). An `Error` escapes the worker. Then neither result hook, nor the `finally` block, nor `end()` runs, and `running` stays set. `Work` does not represent an `Error`, so the model never takes this path.
- The owner's lifecycle (finishing, being reclaimed) belongs to the host. It appears only as `TaskProperties.Intervention` between start and completion.

=== FILE: coco_query.dfy ===
/** The parts of CocoQuery that carry decisions: which context and which view
    hierarchy a query works against, and the pool of tasks it has started,
    which it can cancel in bulk. */
module CocoQuery {
  import opened Wrappers
  import CocoTask

  /** An android Context: an activity's own, or any other (application,
      service), identified by an opaque number. */
  datatype Context = ActivityContext(activity: int) | OtherContext(id: int)

  /** A view and the subtree below it. */
  datatype View = View(id: int, context: Context, children: seq<View>)

  /** An activity: its identity, whether it is finishing, and its content tree. */
  datatype Activity = Activity(ident: int, finishing: bool, content: View)

  /** How the model names a task object; the pool maps keys to these. */
  type TaskId = int

  /** The fields of a CocoQuery; `None` is a null field. `pool` is the
      taskpool, keyed by the task's hashCode. */
  datatype Query = Query(
    root: Option<View>,
    act: Option<Activity>,
    context: Option<Context>,
    pool: map<int, TaskId>)

  /** The Context an activity is. */
  function ContextOf(a: Activity): Context {
    ActivityContext(a.ident)
  }

  // ---------------------------------------------------------------------
  // Constructors

  function FromActivity(a: Activity): (q: Query)
    ensures q.act == Some(a) && q.root.None? && q.context.None? && q.pool == map[]
  {
    Query(None, Some(a), None, map[])
  }

  function FromView(root: View): (q: Query)
    ensures q.root == Some(root) && q.act.None? && q.context.None? && q.pool == map[]
  {
    Query(Some(root), None, None, map[])
  }

  function FromActivityAndView(a: Activity, root: View): (q: Query)
    ensures q.root == Some(root) && q.act == Some(a) && q.context.None? && q.pool == map[]
  {
    Query(Some(root), Some(a), None, map[])
  }

  function FromContext(c: Option<Context>): (q: Query)
    ensures q.context == c && q.root.None? && q.act.None? && q.pool == map[]
  {
    Query(None, None, c, map[])
  }

  // ---------------------------------------------------------------------
  // Context and view lookup

  /** getContext(): the activity if there is one, else the root view's
      context if there is a root, else the context given at construction. */
  function GetContext(q: Query): (r: Option<Context>)
    ensures q.act.Some? ==> r == Some(ContextOf(q.act.value))
    ensures q.act.None? && q.root.Some? ==> r == Some(q.root.value.context)
    ensures q.act.None? && q.root.None? ==> r == q.context
  {
    match q.act
    case Some(a) => Some(ContextOf(a))
    case None =>
      match q.root
      case Some(v) => Some(v.context)
      case None => q.context
  }

  /** `w` is `v` or lies somewhere below it. */
  ghost predicate InTree(w: View, v: View)
    decreases v
  {
    w == v || exists i :: 0 <= i < |v.children| && InTree(w, v.children[i])
  }

  /** The views of a subtree in pre-order: the view itself, then the
      subtrees of its children from left to right. */
  function PreOrder(v: View): (s: seq<View>)
    decreases v, 1
    ensures |s| >= 1 && s[0] == v
  {
    [v] + PreOrderFrom(v, 0)
  }

  /** The pre-order of the subtrees of `v`'s children from the `i`-th on. */
  function PreOrderFrom(v: View, i: nat): seq<View>
    requires i <= |v.children|
    decreases v, 0, |v.children| - i
  {
    if i == |v.children| then [] else PreOrder(v.children[i]) + PreOrderFrom(v, i + 1)
  }

  /** The first view of `s` with the given id, if any. */
  function FirstWithId(s: seq<View>, id: int): (r: Option<View>)
    ensures r.None? <==> forall k :: 0 <= k < |s| ==> s[k].id != id
    ensures r.Some? ==> exists k :: 0 <= k < |s| && s[k] == r.value && r.value.id == id &&
                                    forall j :: 0 <= j < k ==> s[j].id != id
  {
    if s == [] then None
    else if s[0].id == id then Some(s[0])
    else
      var r := FirstWithId(s[1..], id);
      assert r.Some? ==> exists k :: 0 <= k < |s| && s[k] == r.value && r.value.id == id &&
                                     forall j :: 0 <= j < k ==> s[j].id != id by {
        if r.Some? {
          var k :| 0 <= k < |s[1..]| && s[1..][k] == r.value && r.value.id == id &&
                   forall j :: 0 <= j < k ==> s[1..][j].id != id;
          assert s[k + 1] == r.value;
          assert forall j :: 0 <= j < k + 1 ==> s[j].id != id by {
            forall j | 0 <= j < k + 1 ensures s[j].id != id {
              if j > 0 { assert s[j] == s[1..][j - 1]; }
            }
          }
        }
      }
      r
  }

  /** The toolkit's findViewById: a pre-order search of the subtree for the
      first view with the given id (see `QueryProperties.FindsFirstInPreOrder`). */
  function FindViewById(v: View, id: int): (r: Option<View>)
    decreases v, 1
    ensures v.id == id ==> r == Some(v)
    ensures r.Some? ==> r.value.id == id && InTree(r.value, v)
    ensures r.None? ==> forall w :: InTree(w, v) ==> w.id != id
  {
    if v.id == id then Some(v) else FindInChildren(v, 0, id)
  }

  /** The search over `v`'s children from the `i`-th on. */
  function FindInChildren(v: View, i: nat, id: int): (r: Option<View>)
    requires i <= |v.children|
    decreases v, 0, |v.children| - i
    ensures r.Some? ==> r.value.id == id && exists k :: i <= k < |v.children| && InTree(r.value, v.children[k])
    ensures r.None? ==> forall k, w :: i <= k < |v.children| && InTree(w, v.children[k]) ==> w.id != id
  {
    if i == |v.children| then None
    else
      match FindViewById(v.children[i], id)
      case Some(w) => Some(w)
      case None => FindInChildren(v, i + 1, id)
  }

  /** findView(id): search the root if there is one — and only the root —
      else the activity's content; null when there is neither. */
  function FindView(q: Query, id: int): (r: Option<View>)
    ensures q.root.None? && q.act.None? ==> r.None?
    ensures r.Some? ==> r.value.id == id
    ensures q.root.Some? ==> (r.Some? ==> InTree(r.value, q.root.value))
    ensures q.root.Some? ==> (r.None? <==> forall w :: InTree(w, q.root.value) ==> w.id != id)
    ensures q.root.None? && q.act.Some? ==> (r.Some? ==> InTree(r.value, q.act.value.content))
    ensures q.root.None? && q.act.Some? ==>
      (r.None? <==> forall w :: InTree(w, q.act.value.content) ==> w.id != id)
  {
    if q.root.Some? then FindViewById(q.root.value, id)
    else if q.act.Some? then FindViewById(q.act.value.content, id)
    else None
  }

  /** recycle(View): replace the root view, possibly with null; everything
      else is kept. */
  function Recycle(q: Query, view: Option<View>): (r: Query)
    ensures r.root == view
    ensures r.act == q.act && r.context == q.context && r.pool == q.pool
  {
    q.(root := view)
  }

  // ---------------------------------------------------------------------
  // Task pool

  /** The result of task(): the query (the same one, with its pool
      updated) and the start step of the task. */
  datatype Submitted = Submitted(query: Query, step: CocoTask.Step)

  /** task(CocoTask): enter the task in the pool under `key` (its hashCode),
      then start it against the activity if there is one, else against
      getContext(), which may be null. The entry is made before the start, so it is kept even
      when the start raises. */
  function SubmitTask(q: Query, id: TaskId, t: CocoTask.Task, key: int, throwing: set<CocoTask.Hook>): (r: Submitted)
    ensures r.query.pool == q.pool[key := id]
    ensures r.query.root == q.root && r.query.act == q.act && r.query.context == q.context
    ensures q.act.Some? ==> r.step.task.owner == (if q.act.value.finishing then CocoTask.Finishing else CocoTask.Alive)
    ensures q.act.Some? && q.act.value.finishing ==> r.step.trace == [] && r.step.task.running == t.running
    ensures q.act.None? ==> r.step.task.owner == t.owner
    ensures q.act.None? && t.owner == CocoTask.NoOwner ==>
      r.step.raised == Some(CocoTask.NullPointer) && CocoTask.Pre !in r.step.trace
    ensures q.act.None? && GetContext(q).None? && t.dialogResId != CocoTask.NoDialog ==>
      r.step.raised == Some(CocoTask.NullPointer) && r.step.trace == [] && r.step.task.running == t.running
    ensures || (q.act.Some? && !q.act.value.finishing)
            || (q.act.None? && t.owner != CocoTask.NoOwner && (GetContext(q).Some? || t.dialogResId == CocoTask.NoDialog))
            ==> (r.step.raised.None? <==> CocoTask.PreHook !in throwing)
    ensures q.act.Some? ==> r.step == CocoTask.AsyncActivity(t, q.act.value.finishing, throwing)
    ensures q.act.None? ==> r.step == CocoTask.AsyncContext(t, GetContext(q).Some?, throwing)
  {
    var pooled := q.(pool := q.pool[key := id]);
    var step := match q.act
                case Some(a) => CocoTask.AsyncActivity(t, a.finishing, throwing)
                case None => CocoTask.AsyncContext(t, GetContext(q).Some?, throwing);
    Submitted(pooled, step)
  }

  /** `after` is `before` with exactly the tasks named in `ids` cancelled. */
  ghost predicate CancelledExactly(before: map<TaskId, CocoTask.Task>, after: map<TaskId, CocoTask.Task>, ids: set<TaskId>) {
    && after.Keys == before.Keys
    && (forall id :: id in before && id in ids ==> after[id] == CocoTask.Cancel(before[id]))
    && (forall id :: id in before && id !in ids ==> after[id] == before[id])
  }

  /** CleanAllTask(): cancel every task the pool refers to. `tasks` holds the
      task objects the pool's ids name; the `id in tasks'` test stands for
      the null check on each value. An entry the weak map has already
      dropped is a key absent from `q.pool`, so its task is not visited. The query itself is returned unchanged. Each distinct
      task is visited once; since cancel() is idempotent, this is the same as
      visiting it once per entry that refers to it. */
  method CleanAllTask(q: Query, tasks: map<TaskId, CocoTask.Task>)
    returns (r: Query, tasks': map<TaskId, CocoTask.Task>)
    ensures r == q
    ensures CancelledExactly(tasks, tasks', q.pool.Values)
  {
    r := q;
    tasks' := tasks;
    var remaining := q.pool.Values;
    ghost var visited: set<TaskId> := {};
    while remaining != {}
      invariant remaining + visited == q.pool.Values && remaining !! visited
      invariant CancelledExactly(tasks, tasks', visited)
      decreases remaining
    {
      assert exists id :: id in remaining by {
        if forall id :: id !in remaining {
          assert false;
        }
      }
      var id :| id in remaining;
      if id in tasks' {
        tasks' := tasks'[id := CocoTask.Cancel(tasks'[id])];
      }
      remaining := remaining - {id};
      visited := visited + {id};
    }
  }
}

=== FILE: coco_task.dfy ===
/** The lifecycle engine of one CocoTask: its configuration, the android
    AsyncTask it creates when started, and the main-thread steps
    (start, completion, cancellation) as pure functions over an immutable
    task record. The worker thread is a single step driven by an oracle. */
module CocoTask {
  import opened Wrappers
  import Progress

  /** What the task's weak reference to its owning activity yields:
      no reference recorded, a live activity, one that is finishing, or one
      that has been reclaimed. */
  datatype Owner = NoOwner | Alive | Finishing | Reclaimed

  /** An exception object; only its identity matters here. */
  datatype Exception = Exception(name: string)

  /** AsyncTask.Status once the task has been handed to the executor. */
  datatype Status = Running | Finished

  /** How far the background half of the AsyncTask got. `Undispatched`: the
      main-thread preparation threw, so no worker was ever submitted.
      `Computed`: the value doInBackground returned (null is `None`) and the
      exception it captured, if any. */
  datatype Phase =
    | Undispatched
    | Queued
    | Computed(result: Option<int>, error: Option<Exception>)

  /** The AsyncTask created by runtask. */
  datatype Job = Job(status: Status, cancelled: bool, phase: Phase)

  /** The ProgressDialog built in onPreExecute. */
  datatype ProgressDialog = ProgressDialog(
    messageId: int,
    cancelable: bool,
    indeterminate: bool,
    cancelListener: bool,
    showing: bool)

  /** The value of `dialogreid` meaning "no progress dialog requested". */
  const NoDialog: int := -1

  /** The mutable fields of a CocoTask. `dialogIndeterminate` is the field the
      source calls `dialogdeterminate`: it is handed to setIndeterminate. */
  datatype Task = Task(
    progress: Option<Progress.Target>,
    view: Option<Progress.Visibility>,
    dialogResId: int,
    dialogCancelable: bool,
    dialogIndeterminate: bool,
    dialog: Option<ProgressDialog>,
    owner: Owner,
    job: Option<Job>,
    running: bool)

  /** The user-overridable hooks of a task. */
  datatype Hook = PreHook | CallbackHook | FailCallbackHook | EndHook

  /** What a main-thread step observably does, in order. `ShowProgress` is
      recorded when showProgress is entered, also when it then raises. */
  datatype Event =
    | Pre
    | Callback(result: Option<int>)
    | FailCallback(result: Option<int>, error: Exception)
    | ShowProgress(show: bool)
    | End

  /** An exception escaping a main-thread step: a null dereference (of an
      unset owner reference, or of a null Context), or one thrown by a user
      hook. */
  datatype Raised = NullPointer | HookThrew(hook: Hook)

  /** The outcome of the user's backgroundWork: a value, or an Exception. */
  datatype Work = Returns(value: Option<int>) | Throws(error: Exception)

  /** The task after a main-thread step, the events the step produced, and
      the exception it let escape, if any. */
  datatype Step = Step(task: Task, trace: seq<Event>, raised: Option<Raised>)

  /** A freshly constructed task, with the source's field initialisers. */
  function NewTask(): (t: Task)
    ensures t.job.None? && !t.running && t.owner == NoOwner
    ensures t.dialogResId == NoDialog && t.dialog.None?
    ensures !t.dialogCancelable && t.dialogIndeterminate
  {
    Task(None, None, NoDialog, false, true, None, NoOwner, None, false)
  }

  /** The configuration fields set by the builder calls. */
  predicate SameConfig(t: Task, u: Task) {
    && t.dialogResId == u.dialogResId
    && t.dialogCancelable == u.dialogCancelable
    && t.dialogIndeterminate == u.dialogIndeterminate
  }

  /** The fields that say where in its lifecycle a task is. */
  predicate SameExecution(t: Task, u: Task) {
    t.owner == u.owner && t.job == u.job && t.running == u.running
  }

  // ---------------------------------------------------------------------
  // Builder calls

  /** progress(View), progress(Dialog), progress(Activity): a null argument
      (`None`) leaves the previous target in place. */
  function SetProgress(t: Task, target: Option<Progress.Target>): (r: Task)
    ensures target.Some? ==> r.progress == target
    ensures target.None? ==> r == t
    ensures SameConfig(t, r) && SameExecution(t, r) && r.view == t.view && r.dialog == t.dialog
  {
    if target.Some? then t.(progress := target) else t
  }

  /** view(View): the foreground view hidden while the task runs; null clears it. */
  function SetView(t: Task, view: Option<Progress.Visibility>): (r: Task)
    ensures r.view == view
    ensures SameConfig(t, r) && SameExecution(t, r) && r.progress == t.progress && r.dialog == t.dialog
  {
    t.(view := view)
  }

  /** dialog(resId): request a progress dialog showing the given message. */
  function SetDialog(t: Task, resId: int): (r: Task)
    ensures r.dialogResId == resId
    ensures r.dialogCancelable == t.dialogCancelable && r.dialogIndeterminate == t.dialogIndeterminate
    ensures SameExecution(t, r) && r.progress == t.progress && r.view == t.view && r.dialog == t.dialog
  {
    t.(dialogResId := resId)
  }

  /** cancelable(): the dialog may be dismissed by the back key, which cancels the task. */
  function SetCancelable(t: Task): (r: Task)
    ensures r.dialogCancelable
    ensures r.dialogResId == t.dialogResId && r.dialogIndeterminate == t.dialogIndeterminate
    ensures SameExecution(t, r) && r.progress == t.progress && r.view == t.view && r.dialog == t.dialog
  {
    t.(dialogCancelable := true)
  }

  /** determinate(): the dialog reports real progress, i.e. it is NOT indeterminate. */
  function SetDeterminate(t: Task): (r: Task)
    ensures !r.dialogIndeterminate
    ensures r.dialogResId == t.dialogResId && r.dialogCancelable == t.dialogCancelable
    ensures SameExecution(t, r) && r.progress == t.progress && r.view == t.view && r.dialog == t.dialog
  {
    t.(dialogIndeterminate := false)
  }

  // ---------------------------------------------------------------------
  // Queries

  /** isActive(): may hooks still be delivered to the owner? */
  function IsActive(t: Task): (r: bool)
    ensures r <==> (t.owner == NoOwner || t.owner == Alive)
  {
    match t.owner
    case NoOwner => true
    case Alive => true
    case Finishing => false
    case Reclaimed => false
  }

  /** isRunning(). */
  function IsRunning(t: Task): (r: bool)
    ensures r <==> t.running
  {
    t.running
  }

  // ---------------------------------------------------------------------
  // Progress

  /** The progress target after the static dispatcher; no target, no effect. */
  function DispatchTarget(p: Option<Progress.Target>, show: bool): (r: Option<Progress.Target>)
    ensures r.Some? <==> p.Some?
    ensures p.Some? ==> r.value == Progress.Apply(p.value, show)
  {
    match p
    case Some(target) => Some(Progress.Apply(target, show))
    case None => None
  }

  /** The progress dialog is shown only when it is not showing, and
      dismissed only when it is showing. */
  function ToggleDialog(d: Option<ProgressDialog>, show: bool): (r: Option<ProgressDialog>)
    ensures r.Some? <==> d.Some?
    ensures d.Some? ==> r.value == d.value.(showing := show)
    ensures d.Some? && d.value.showing == show ==> r == d
  {
    match d
    case Some(dlg) =>
      if show && !dlg.showing then Some(dlg.(showing := true))
      else if !show && dlg.showing then Some(dlg.(showing := false))
      else d
    case None => None
  }

  /** The foreground view is INVISIBLE while progress shows, VISIBLE otherwise. */
  function Foreground(view: Option<Progress.Visibility>, show: bool): (r: Option<Progress.Visibility>)
    ensures r.Some? <==> view.Some?
    ensures r.Some? ==> (r.value == Progress.Visible <==> !show)
    ensures r.Some? ==> r.value != Progress.Gone
  {
    match view
    case Some(_) => Some(if show then Progress.Invisible else Progress.Visible)
    case None => None
  }

  /** The instance showProgress(boolean). It dereferences the owner reference
      first, so a task without one raises; a finishing or reclaimed owner
      makes it return without touching anything. Otherwise the progress
      target, the dialog and the foreground view are updated as
      `DispatchTarget`, `ToggleDialog` and `Foreground` say. */
  function ShowProgressOf(t: Task, show: bool): (r: Result<Task, Raised>)
    ensures t.owner == NoOwner <==> r == Failure(NullPointer)
    ensures t.owner == Finishing || t.owner == Reclaimed ==> r == Success(t)
    ensures t.owner == Alive ==> r.Success?
    ensures r.Success? ==> SameConfig(t, r.value) && SameExecution(t, r.value)
    ensures t.owner == Alive ==> r.value.progress == DispatchTarget(t.progress, show)
    ensures t.owner == Alive ==> r.value.dialog == ToggleDialog(t.dialog, show)
    ensures t.owner == Alive ==> r.value.view == Foreground(t.view, show)
  {
    match t.owner
    case NoOwner => Failure(NullPointer)
    case Finishing => Success(t)
    case Reclaimed => Success(t)
    case Alive =>
      Success(t.(progress := DispatchTarget(t.progress, show),
                 dialog := ToggleDialog(t.dialog, show),
                 view := Foreground(t.view, show)))
  }

  // ---------------------------------------------------------------------
  // Starting

  /** The dialog onPreExecute builds from the task's configuration. */
  function BuildDialog(t: Task): (d: ProgressDialog)
    ensures d.messageId == t.dialogResId && !d.showing
    ensures d.cancelable == t.dialogCancelable && d.cancelListener == t.dialogCancelable
    ensures d.indeterminate == t.dialogIndeterminate
  {
    ProgressDialog(t.dialogResId, t.dialogCancelable, t.dialogIndeterminate, t.dialogCancelable, false)
  }

  /** onPreExecute builds the requested dialog from runtask's Context
      argument; when that Context is null, building it dereferences null. */
  predicate MissingDialogContext(t: Task, hasContext: bool) {
    !hasContext && t.dialogResId != NoDialog
  }

  /** runtask(Context): create the AsyncTask and hand it to the executor,
      which marks it RUNNING and runs onPreExecute on the calling thread —
      build the dialog if one was requested, showProgress(true), then pre()
      — before submitting the worker. `hasContext` says whether the Context
      argument is non-null. An exception in onPreExecute escapes runtask
      before the worker is submitted and before `running` is set. */
  function RunTask(t: Task, hasContext: bool, throwing: set<Hook>): (s: Step)
    ensures s.task.job.Some? && s.task.job.value.status == Running && !s.task.job.value.cancelled
    ensures s.task.job.value.phase == (if s.raised.None? then Queued else Undispatched)
    ensures s.raised.None? <==> !MissingDialogContext(t, hasContext) && t.owner != NoOwner && PreHook !in throwing
    ensures MissingDialogContext(t, hasContext) ==>
      s.raised == Some(NullPointer) && s.trace == [] && s.task.dialog == t.dialog
    ensures !MissingDialogContext(t, hasContext) && t.owner == NoOwner ==>
      s.raised == Some(NullPointer) && s.trace == [ShowProgress(true)]
    ensures !MissingDialogContext(t, hasContext) && t.owner != NoOwner ==> s.trace == [ShowProgress(true), Pre]
    ensures s.task.running == (s.raised.None? || t.running)
    ensures SameConfig(t, s.task) && s.task.owner == t.owner
    ensures !MissingDialogContext(t, hasContext) && t.dialogResId != NoDialog ==>
      s.task.dialog == Some(BuildDialog(t).(showing := t.owner == Alive))
    ensures t.dialogResId == NoDialog && t.owner != Alive ==> s.task.dialog == t.dialog
    ensures !MissingDialogContext(t, hasContext) && t.owner == Alive ==>
      s.task.progress == DispatchTarget(t.progress, true) && s.task.view == Foreground(t.view, true)
    ensures t.owner != Alive || MissingDialogContext(t, hasContext) ==>
      s.task.progress == t.progress && s.task.view == t.view
  {
    var job := Job(Running, false, Undispatched);
    if MissingDialogContext(t, hasContext) then
      Step(t.(job := Some(job)), [], Some(NullPointer))
    else
      var dialog := if t.dialogResId != NoDialog then Some(BuildDialog(t)) else t.dialog;
      var prepared := t.(job := Some(job), dialog := dialog);
      match ShowProgressOf(prepared, true)
      case Failure(e) =>
        Step(prepared, [ShowProgress(true)], Some(e))
      case Success(shown) =>
        if PreHook in throwing then
          Step(shown, [ShowProgress(true), Pre], Some(HookThrew(PreHook)))
        else
          Step(shown.(job := Some(job.(phase := Queued)), running := true), [ShowProgress(true), Pre], None)
  }

  /** async(Activity): record the owner; a finishing owner starts nothing.
      The activity itself is the (non-null) Context handed to runtask. */
  function AsyncActivity(t: Task, finishing: bool, throwing: set<Hook>): (s: Step)
    ensures s.task.owner == (if finishing then Finishing else Alive)
    ensures finishing ==> s.trace == [] && s.raised.None? && s.task.job == t.job && s.task.running == t.running
    ensures !finishing ==> s.trace == [ShowProgress(true), Pre]
    ensures !finishing && PreHook !in throwing ==> s.raised.None? && s.task.running
    ensures !finishing && PreHook in throwing ==> s.raised == Some(HookThrew(PreHook))
    ensures !finishing ==> s.task.job == Some(Job(Running, false, if s.raised.None? then Queued else Undispatched))
    ensures !finishing ==> s == RunTask(t.(owner := Alive), true, throwing)
  {
    var owned := t.(owner := if finishing then Finishing else Alive);
    if finishing then Step(owned, [], None) else RunTask(owned, true, throwing)
  }

  /** async(Context): start without recording an owner. A task that never
      had one fails at the owner dereference in showProgress; a null
      Context fails earlier, when a dialog was requested. */
  function AsyncContext(t: Task, hasContext: bool, throwing: set<Hook>): (s: Step)
    ensures s.task.owner == t.owner
    ensures MissingDialogContext(t, hasContext) ==>
      s.raised == Some(NullPointer) && s.trace == [] && s.task.running == t.running
    ensures t.owner == NoOwner ==>
      s.raised == Some(NullPointer) && Pre !in s.trace && s.task.running == t.running
    ensures s.raised.None? <==> !MissingDialogContext(t, hasContext) && t.owner != NoOwner && PreHook !in throwing
    ensures s.raised.None? ==> s.task.running && s.trace == [ShowProgress(true), Pre]
  {
    RunTask(t, hasContext, throwing)
  }

  // ---------------------------------------------------------------------
  // Worker thread

  /** doInBackground: run backgroundWork; an Exception is captured and the
      step yields null instead of propagating. (An Error is not caught there;
      `Work` does not represent one.) */
  function Background(t: Task, work: Work): (u: Task)
    requires t.job.Some? && t.job.value.phase == Queued
    ensures u.job.Some? && u.job.value.phase.Computed?
    ensures u.job.value.status == t.job.value.status && u.job.value.cancelled == t.job.value.cancelled
    ensures work.Throws? ==> u.job.value.phase == Computed(None, Some(work.error))
    ensures work.Returns? ==> u.job.value.phase == Computed(work.value, None)
    ensures SameConfig(t, u) && u.owner == t.owner && u.running == t.running
  {
    var phase := match work
                 case Returns(v) => Computed(v, None)
                 case Throws(e) => Computed(None, Some(e));
    t.(job := Some(t.job.value.(phase := phase)))
  }

  // ---------------------------------------------------------------------
  // Completion

  /** Which result hook onPostExecute invokes, if any: callback only for a
      clean, uncancelled run with an active owner; failcallback for a
      captured exception with an active owner, cancelled or not. */
  function CompletionHook(job: Job, active: bool): (h: Option<Hook>)
    requires job.phase.Computed?
    ensures h == Some(CallbackHook) <==> job.phase.error.None? && !job.cancelled && active
    ensures h == Some(FailCallbackHook) <==> job.phase.error.Some? && active
    ensures h.Some? ==> h.value == CallbackHook || h.value == FailCallbackHook
  {
    if job.phase.error.None? then
      if !job.cancelled && active then Some(CallbackHook) else None
    else
      if active then Some(FailCallbackHook) else None
  }

  /** Whether an event is the invocation of a result hook. */
  predicate IsResultHook(e: Event) {
    e.Callback? || e.FailCallback?
  }

  /** The events of the `try` block of onPostExecute for AsyncTask `job`:
      the result hook's invocation, if one is due, and nothing else. */
  function Dispatch(job: Job, active: bool): (fired: seq<Event>)
    requires job.phase.Computed?
    ensures job.phase.error.None? && !job.cancelled && active ==> fired == [Callback(job.phase.result)]
    ensures job.phase.error.Some? && active ==> fired == [FailCallback(job.phase.result, job.phase.error.value)]
    ensures !active || (job.phase.error.None? && job.cancelled) ==> fired == []
  {
    match CompletionHook(job, active)
    case Some(CallbackHook) => [Callback(job.phase.result)]
    case Some(FailCallbackHook) => [FailCallback(job.phase.result, job.phase.error.value)]
    case _ => []
  }

  /** The `finally` block of onPostExecute: showProgress(false), then end().
      A task without an owner reference raises before end() is reached. */
  function Finally(t: Task, throwing: set<Hook>): (s: Step)
    ensures t.owner == NoOwner <==> s.trace == [ShowProgress(false)]
    ensures t.owner == NoOwner ==> s.raised == Some(NullPointer)
    ensures t.owner != NoOwner ==> s.trace == [ShowProgress(false), End]
    ensures t.owner != NoOwner ==> s.raised == if EndHook in throwing then Some(HookThrew(EndHook)) else None
    ensures t.owner == Alive ==> s.task == ShowProgressOf(t, false).value
    ensures t.owner != Alive ==> s.task == t
  {
    match ShowProgressOf(t, false)
    case Failure(e) => Step(t, [ShowProgress(false)], Some(e))
    case Success(hidden) =>
      Step(hidden, [ShowProgress(false), End], if EndHook in throwing then Some(HookThrew(EndHook)) else None)
  }

  /** The body of onPostExecute of AsyncTask `job`, run against the task's
      current fields. `job` is normally the task's own AsyncTask, but it may
      be one that a later start replaced and that still completes: the hook
      choice reads the job's own outcome and cancelled flag, while the owner,
      progress, dialog and `running` are the task's. The result hook, if
      any, runs inside `try`; the `finally` block then runs
      showProgress(false) and end(). An exception from the finally block
      replaces one from the hook; `running` is cleared only when nothing was
      thrown. The task's AsyncTask slot is left alone. */
  function Complete(t: Task, job: Job, throwing: set<Hook>): (s: Step)
    requires job.phase.Computed?
    ensures t.owner != NoOwner ==> s.trace == Dispatch(job, IsActive(t)) + [ShowProgress(false), End]
    ensures t.owner == NoOwner ==> s.trace == Dispatch(job, true) + [ShowProgress(false)]
    ensures !IsActive(t) ==> s.trace == [ShowProgress(false), End]
    ensures t.owner == NoOwner ==> s.raised == Some(NullPointer)
    ensures s.raised.None? <==>
      && t.owner != NoOwner
      && EndHook !in throwing
      && (CompletionHook(job, IsActive(t)).Some? ==> CompletionHook(job, IsActive(t)).value !in throwing)
    ensures s.raised.None? ==> !s.task.running
    ensures s.raised.Some? ==> s.task.running == t.running
    ensures s.task.job == t.job && SameConfig(t, s.task) && s.task.owner == t.owner
    ensures t.owner == Alive ==> s.task.(running := t.running) == ShowProgressOf(t, false).value
    ensures t.owner != Alive ==> s.task.(running := t.running) == t
  {
    var hook := CompletionHook(job, IsActive(t));
    var fin := Finally(t, throwing);
    var raised :=
      if fin.raised.Some? then fin.raised
      else if hook.Some? && hook.value in throwing then Some(HookThrew(hook.value))
      else None;
    var task := if raised.None? then fin.task.(running := false) else fin.task;
    Step(task, Dispatch(job, IsActive(t)) + fin.trace, raised)
  }

  /** onPostExecute of the task's current AsyncTask: `Complete`, after which
      the AsyncTask reaches FINISHED, but only when onPostExecute returned
      normally. */
  function PostExecute(t: Task, throwing: set<Hook>): (s: Step)
    requires t.job.Some? && t.job.value.phase.Computed?
    ensures var job := t.job.value;
      && (Callback(job.phase.result) in s.trace <==> job.phase.error.None? && !job.cancelled && IsActive(t))
      && (job.phase.error.Some? ==>
            (FailCallback(job.phase.result, job.phase.error.value) in s.trace <==> IsActive(t)))
    ensures t.owner != NoOwner ==> s.trace == Dispatch(t.job.value, IsActive(t)) + [ShowProgress(false), End]
    ensures !IsActive(t) ==> s.trace == [ShowProgress(false), End]
    ensures t.owner == NoOwner ==> s.raised == Some(NullPointer) && End !in s.trace
    ensures s.raised.None? ==> !s.task.running && s.task.job == Some(t.job.value.(status := Finished))
    ensures s.raised.Some? ==> s.task.running == t.running && s.task.job == t.job
    ensures s.raised.None? <==>
      && t.owner != NoOwner
      && EndHook !in throwing
      && (CompletionHook(t.job.value, IsActive(t)).Some? ==> CompletionHook(t.job.value, IsActive(t)).value !in throwing)
    ensures SameConfig(t, s.task) && s.task.owner == t.owner
  {
    var c := Complete(t, t.job.value, throwing);
    if c.raised.None? then c.(task := c.task.(job := Some(t.job.value.(status := Finished)))) else c
  }

  // ---------------------------------------------------------------------
  // Cancellation

  /** cancel(): flag the AsyncTask cancelled, unless there is none, it is
      already cancelled, or it has finished. Only the flag changes. */
  function Cancel(t: Task): (u: Task)
    ensures t.job.None? || t.job.value.cancelled || t.job.value.status == Finished ==> u == t
    ensures u.job.Some? <==> t.job.Some?
    ensures u.job.Some? ==> u.job.value.cancelled == (t.job.value.cancelled || t.job.value.status.Running?)
    ensures u.job.Some? ==> u.job.value.status == t.job.value.status && u.job.value.phase == t.job.value.phase
  {
    match t.job
    case Some(job) =>
      if !job.cancelled && job.status != Finished then t.(job := Some(job.(cancelled := true))) else t
    case None => t
  }

  /** onCancel(DialogInterface): the dialog's cancel listener. */
  function OnCancel(t: Task): (u: Task)
    ensures u == Cancel(t)
  {
    Cancel(t)
  }
}

=== FILE: progress.dfy ===
/** The presentation targets a task can bind its progress indicator to, and
    the per-kind effect of CocoTask's static `showProgress(Object, String,
    boolean)` dispatcher on each of them. */
module Progress {
  import opened Wrappers

  datatype Visibility = Visible | Invisible | Gone

  /** The part of an android ProgressBar's state that the dispatcher touches. */
  datatype Bar = Bar(progress: int, max: int, indeterminate: bool)

  /** What the task's weak reference to its progress target yields.
      A `ViewTarget` whose `bar` is `Some` is a ProgressBar; `Released` is a
      reference whose referent has been reclaimed (`get()` returns null). */
  datatype Target =
    | ViewTarget(visibility: Visibility, bar: Option<Bar>)
    | DialogTarget(showing: bool)
    | ActivityTarget(indeterminateBusy: bool, busy: bool, progress: int)
    | Released

  /** A ProgressBar that reports real progress rather than spinning. */
  predicate IsDeterminateBar(p: Target) {
    p.ViewTarget? && p.bar.Some? && !p.bar.value.indeterminate
  }

  /** Whether the target currently tells the user that work is in progress. */
  predicate Shown(p: Target) {
    match p
    case ViewTarget(vis, _) => vis == Visible
    case DialogTarget(showing) => showing
    case ActivityTarget(spinner, bar, _) => spinner || bar
    case Released => false
  }

  predicate SameKind(p: Target, q: Target) {
    && (p.ViewTarget? <==> q.ViewTarget?)
    && (p.DialogTarget? <==> q.DialogTarget?)
    && (p.ActivityTarget? <==> q.ActivityTarget?)
    && (p.Released? <==> q.Released?)
  }

  /** The static dispatcher: show or hide one target according to its kind.
      A released target is left alone, as the source does for a null object. */
  function Apply(p: Target, show: bool): (r: Target)
    ensures SameKind(p, r)
    ensures p.Released? ==> r == p
    ensures show ==> (Shown(r) <==> !p.Released?)
    ensures !show && !IsDeterminateBar(p) ==> !Shown(r)
    ensures !show && IsDeterminateBar(p) ==> r == p
    ensures p.ViewTarget? && !show && !IsDeterminateBar(p) ==> r.visibility == Gone
    ensures r.ViewTarget? ==> (r.bar.Some? <==> p.bar.Some?)
    ensures r.ViewTarget? && r.bar.Some? ==> r.bar.value.indeterminate == p.bar.value.indeterminate
    ensures show && r.ViewTarget? && r.bar.Some? ==> r.bar.value == Bar(0, 100, p.bar.value.indeterminate)
    ensures !show && r.ViewTarget? ==> r.bar == p.bar
    ensures r.ActivityTarget? ==> r.indeterminateBusy == show && r.busy == show
    ensures r.ActivityTarget? ==> r.progress == (if show then 0 else p.progress)
  {
    match p
    case ViewTarget(vis, bar) =>
      if show then
        ViewTarget(Visible, match bar
                            case Some(b) => Some(b.(progress := 0, max := 100))
                            case None => None)
      else if bar.None? || bar.value.indeterminate then
        ViewTarget(Gone, bar)
      else
        p
    case DialogTarget(showing) =>
      DialogTarget(show)
    case ActivityTarget(_, _, progress) =>
      ActivityTarget(show, show, if show then 0 else progress)
    case Released =>
      p
  }

  /** Applying the same request twice is the same as applying it once. */
  lemma ApplyIdempotent(p: Target, show: bool)
    ensures Apply(Apply(p, show), show) == Apply(p, show)
  {
    match p
    case ViewTarget(vis, bar) =>
    case DialogTarget(_) =>
    case ActivityTarget(_, _, _) =>
    case Released =>
  }

  /** A show followed by a hide leaves every target hidden except a
      determinate ProgressBar, which the hide branch skips and which
      therefore stays visible. */
  lemma ShowThenHide(p: Target)
    requires !p.Released?
    ensures IsDeterminateBar(p) ==> Shown(Apply(Apply(p, true), false))
    ensures !IsDeterminateBar(p) ==> !Shown(Apply(Apply(p, true), false))
  {
    var q := Apply(p, true);
    assert IsDeterminateBar(q) <==> IsDeterminateBar(p);
  }
}

=== FILE: query_properties.dfy ===
/** Properties of CocoQuery's lookup precedence and of its task pool. */
module QueryProperties {
  import opened Wrappers
  import CocoTask
  import opened CocoQuery

  /** The activity outranks the root view, which outranks the plain context. */
  lemma ContextPrecedence(a: Activity, root: View, c: Option<Context>)
    ensures GetContext(FromActivityAndView(a, root)) == Some(ActivityContext(a.ident))
    ensures GetContext(FromView(root)) == Some(root.context)
    ensures GetContext(FromContext(c)) == c
    ensures GetContext(FromActivity(a)) == Some(ActivityContext(a.ident))
  {
  }

  /** With both a root and an activity, only the root is searched: a view
      that exists only in the activity's content is not found. */
  lemma RootShadowsActivity(a: Activity, root: View, id: int)
    requires a.content.id == id
    requires forall w :: InTree(w, root) ==> w.id != id
    ensures FindView(FromActivity(a), id) == Some(a.content)
    ensures FindView(FromActivityAndView(a, root), id).None?
  {
  }

  /** A query on a plain context has no view hierarchy to search. */
  lemma ContextQueryFindsNothing(c: Option<Context>, id: int)
    ensures FindView(FromContext(c), id).None?
  {
  }

  /** recycle() redirects view lookup to the new root and, unless an
      activity is set, getContext() to the new root's context. recycle(null)
      clears the root, so both fall back to the activity or the context. */
  lemma RecycleRedirects(q: Query, view: Option<View>, id: int)
    ensures view.Some? ==> FindView(Recycle(q, view), id) == FindViewById(view.value, id)
    ensures view.None? && q.act.Some? ==> FindView(Recycle(q, view), id) == FindViewById(q.act.value.content, id)
    ensures view.None? && q.act.None? ==> FindView(Recycle(q, view), id).None?
    ensures q.act.Some? ==> GetContext(Recycle(q, view)) == GetContext(q)
    ensures q.act.None? && view.Some? ==> GetContext(Recycle(q, view)) == Some(view.value.context)
    ensures q.act.None? && view.None? ==> GetContext(Recycle(q, view)) == q.context
  {
  }

  /** The first view with `id` in `a + b` is the first in `a`, if `a` has
      one, and otherwise the first in `b`. */
  lemma {:induction false} FirstWithIdAppend(a: seq<View>, b: seq<View>, id: int)
    ensures FirstWithId(a + b, id) == if FirstWithId(a, id).Some? then FirstWithId(a, id) else FirstWithId(b, id)
    decreases |a|
  {
    if a != [] {
      assert (a + b)[1..] == a[1..] + b;
      FirstWithIdAppend(a[1..], b, id);
    } else {
      assert a + b == b;
    }
  }

  /** findViewById returns the first view with the id in the pre-order of
      the subtree: with duplicate ids, the one nearest the root on the
      leftmost path. */
  lemma {:induction false} FindsFirstInPreOrder(v: View, id: int)
    ensures FindViewById(v, id) == FirstWithId(PreOrder(v), id)
    decreases v, 1
  {
    FirstWithIdAppend([v], PreOrderFrom(v, 0), id);
    ChildrenFindFirstInPreOrder(v, 0, id);
  }

  /** The search over the children from the `i`-th on returns the first view
      with the id in their concatenated pre-orders. */
  lemma {:induction false} ChildrenFindFirstInPreOrder(v: View, i: nat, id: int)
    requires i <= |v.children|
    ensures FindInChildren(v, i, id) == FirstWithId(PreOrderFrom(v, i), id)
    decreases v, 0, |v.children| - i
  {
    if i < |v.children| {
      FindsFirstInPreOrder(v.children[i], id);
      ChildrenFindFirstInPreOrder(v, i + 1, id);
      FirstWithIdAppend(PreOrder(v.children[i]), PreOrderFrom(v, i + 1), id);
    }
  }

  /** A later task with an equal key replaces the earlier pool entry; the
      other entries and the pool's size are as after the first call. */
  lemma SameKeyReplaces(q: Query, id1: TaskId, t1: CocoTask.Task, id2: TaskId, t2: CocoTask.Task,
                        key: int, throwing: set<CocoTask.Hook>)
    ensures var first := SubmitTask(q, id1, t1, key, throwing).query;
      var second := SubmitTask(first, id2, t2, key, throwing).query;
      && second.pool[key] == id2
      && second.pool.Keys == first.pool.Keys
      && |second.pool| == |first.pool|
      && (forall k :: k in q.pool && k != key ==> second.pool[k] == q.pool[k])
  {
    var first := SubmitTask(q, id1, t1, key, throwing).query;
    var second := SubmitTask(first, id2, t2, key, throwing).query;
    assert second.pool.Keys == first.pool.Keys;
  }

  /** A fresh task submitted through a query that has no activity fails at
      its first showProgress, yet stays in the pool; through a live
      activity it starts and runs pre(). */
  lemma SubmitPathDecidesOutcome(a: Activity, root: View, id: TaskId, key: int)
    requires !a.finishing
    ensures var s := SubmitTask(FromView(root), id, CocoTask.NewTask(), key, {});
      && s.step.raised == Some(CocoTask.NullPointer)
      && s.query.pool == map[key := id]
      && !CocoTask.IsRunning(s.step.task)
    ensures var s := SubmitTask(FromActivity(a), id, CocoTask.NewTask(), key, {});
      && s.step.raised.None?
      && s.step.trace == [CocoTask.ShowProgress(true), CocoTask.Pre]
      && CocoTask.IsRunning(s.step.task)
  {
  }

  /** A query built on a null Context cannot start a task that requests a
      dialog, even one whose owner is alive: building the dialog
      dereferences the null Context before progress is shown or pre() runs,
      and the task does not become running. */
  lemma NullContextDialogFails(t: CocoTask.Task, resId: int, id: TaskId, key: int)
    requires t.owner == CocoTask.Alive && !t.running && resId != CocoTask.NoDialog
    ensures var s := SubmitTask(FromContext(None), id, CocoTask.SetDialog(t, resId), key, {});
      && s.step.raised == Some(CocoTask.NullPointer)
      && s.step.trace == []
      && !CocoTask.IsRunning(s.step.task)
      && s.query.pool == map[key := id]
    ensures var s := SubmitTask(FromContext(Some(OtherContext(0))), id, CocoTask.SetDialog(t, resId), key, {});
      && s.step.raised.None?
      && s.step.trace == [CocoTask.ShowProgress(true), CocoTask.Pre]
      && CocoTask.IsRunning(s.step.task)
  {
  }
}

=== FILE: task_properties.dfy ===
/** Properties of the CocoTask lifecycle that relate several steps: whole
    runs from start to completion, and arbitrary interleavings of cancel()
    calls and owner teardown between them. */
module TaskProperties {
  import opened Wrappers
  import Progress
  import opened CocoTask

  // ---------------------------------------------------------------------
  // Completion

  /** A completion's events are those of its `try` block followed by those
      of its `finally` block. */
  lemma CompletionTrace(t: Task, throwing: set<Hook>)
    requires t.job.Some? && t.job.value.phase.Computed?
    ensures PostExecute(t, throwing).trace == Dispatch(t.job.value, IsActive(t)) + Finally(t, throwing).trace
  {
  }

  /** No completion invokes both result hooks, nor either one twice: a
      result hook can only be the first event of the completion. */
  lemma AtMostOneResultHook(t: Task, throwing: set<Hook>)
    requires t.job.Some? && t.job.value.phase.Computed?
    ensures var trace := PostExecute(t, throwing).trace;
      forall k :: 0 <= k < |trace| && IsResultHook(trace[k]) ==> k == 0
  {
    var fin := Finally(t, throwing).trace;
    CompletionTrace(t, throwing);
    assert forall k :: 0 <= k < |fin| ==> !IsResultHook(fin[k]);
  }

  /** When onPostExecute runs on a cancelled AsyncTask, a background
      exception still reaches failcallback with a null result whenever the
      owner is active: that branch does not consult the cancelled flag. */
  lemma FailCallbackIgnoresCancel(t: Task, e: Exception, throwing: set<Hook>)
    requires t.job.Some? && t.job.value.phase == Queued
    requires IsActive(t)
    ensures var done := Cancel(Background(t, Throws(e)));
      && done.job.value.cancelled == (t.job.value.cancelled || t.job.value.status == Running)
      && FailCallback(None, e) in PostExecute(done, throwing).trace
      && Callback(None) !in PostExecute(done, throwing).trace
  {
    var done := Cancel(Background(t, Throws(e)));
    assert done.job.value.phase == Computed(None, Some(e));
  }

  /** When onPostExecute runs on a cancelled AsyncTask after a clean run,
      callback is skipped, while the hide and end() in its finally block
      still run. */
  lemma CancelSuppressesCallback(t: Task, v: Option<int>, throwing: set<Hook>)
    requires t.job.Some? && t.job.value.phase == Queued && t.job.value.status == Running
    requires t.owner != NoOwner
    ensures var s := PostExecute(Background(Cancel(t), Returns(v)), throwing);
      && (forall k :: 0 <= k < |s.trace| ==> !IsResultHook(s.trace[k]))
      && s.trace == [ShowProgress(false), End]
  {
    var done := Background(Cancel(t), Returns(v));
    assert done.job.value.cancelled;
    assert CompletionHook(done.job.value, IsActive(done)).None?;
  }

  // ---------------------------------------------------------------------
  // Whole runs against a live owner

  /** The configuration a scenario starts from: a fresh task with a progress
      target and a foreground view. */
  function Configured(target: Progress.Target): (t: Task)
    ensures t.progress == Some(target) && t.view == Some(Progress.Visible)
    ensures t.job.None? && !t.running && t.owner == NoOwner && t.dialog.None?
  {
    SetView(SetProgress(NewTask(), Some(target)), Some(Progress.Visible))
  }

  /** Starting against a live owner shows the progress target, hides the
      foreground view and runs pre(); a clean result then reaches callback,
      followed by the hide and end(), after which the task is not running.
      Every target ends hidden except a determinate ProgressBar, which the
      hide branch skips. */
  lemma SuccessfulRun(target: Progress.Target, v: Option<int>)
    requires !target.Released?
    ensures var started := AsyncActivity(Configured(target), false, {});
      && started.raised.None? && started.task.running
      && Progress.Shown(started.task.progress.value)
      && started.task.view == Some(Progress.Invisible)
      && var done := PostExecute(Background(started.task, Returns(v)), {});
      && done.raised.None? && !done.task.running
      && started.trace + done.trace == [ShowProgress(true), Pre, Callback(v), ShowProgress(false), End]
      && done.task.view == Some(Progress.Visible)
      && (Progress.Shown(done.task.progress.value) <==> Progress.IsDeterminateBar(target))
  {
    var started := AsyncActivity(Configured(target), false, {});
    var computed := Background(started.task, Returns(v));
    assert computed.progress == Some(Progress.Apply(target, true));
    Progress.ShowThenHide(target);
    assert Progress.IsDeterminateBar(Progress.Apply(target, true)) <==> Progress.IsDeterminateBar(target);
  }

  /** A background exception against a live owner reaches failcallback with
      a null result and never callback. */
  lemma FailingRun(target: Progress.Target, e: Exception)
    ensures var started := AsyncActivity(Configured(target), false, {});
      var done := PostExecute(Background(started.task, Throws(e)), {});
      && done.raised.None? && !done.task.running
      && started.trace + done.trace == [ShowProgress(true), Pre, FailCallback(None, e), ShowProgress(false), End]
  {
  }

  /** A hook that throws leaves the task marked running, yet the finally
      block has already hidden progress and run end(). */
  lemma ThrowingCallbackKeepsRunning(target: Progress.Target, v: Option<int>)
    ensures var started := AsyncActivity(Configured(target), false, {});
      var done := PostExecute(Background(started.task, Returns(v)), {CallbackHook});
      && done.raised == Some(HookThrew(CallbackHook)) && done.task.running
      && done.trace == [Callback(v), ShowProgress(false), End]
  {
  }

  /** async(Activity) with a finishing owner starts nothing: no events, no
      AsyncTask, not running; only the owner is recorded. */
  lemma FinishingOwnerStartsNothing(t: Task, throwing: set<Hook>)
    requires t.job.None? && !t.running
    ensures var s := AsyncActivity(t, true, throwing);
      s == Step(t.(owner := Finishing), [], None) && !IsRunning(s.task)
  {
  }

  /** async(Context) on a task that was never started through an activity
      dereferences the missing owner at the first showProgress: pre() never
      runs and the task never reaches the worker. */
  lemma ContextStartAlwaysFails(target: Progress.Target, hasContext: bool, throwing: set<Hook>)
    ensures var s := AsyncContext(Configured(target), hasContext, throwing);
      && s.raised == Some(NullPointer)
      && s.trace == [ShowProgress(true)]
      && !IsRunning(s.task)
      && s.task.job == Some(Job(Running, false, Undispatched))
  {
  }

  /** Submitting a task that is already running is not rejected: a fresh
      AsyncTask replaces the one in flight, which is not cancelled. */
  lemma ResubmissionReplacesJob(t: Task)
    requires t.running && t.job.Some?
    ensures var s := AsyncActivity(t, false, {});
      s.raised.None? && s.task.job == Some(Job(Running, false, Queued))
  {
  }

  /** The AsyncTask replaced by a second start is not cancelled, and its
      onPostExecute still runs against the shared task: it delivers its own
      result to callback, dismisses the dialog the second start built and
      hides the progress the new run showed, runs end() and clears
      `running`, all while the new AsyncTask is still in flight. The new run
      later delivers a second callback. The dialog built by the first start
      is not represented once the second start replaces it. */
  lemma ReplacedJobStillCompletes(target: Progress.Target, resId: int, v: Option<int>, w: Option<int>)
    requires !target.Released? && !Progress.IsDeterminateBar(target) && resId != NoDialog
    ensures var first := AsyncActivity(SetDialog(Configured(target), resId), false, {});
      var computed := Background(first.task, Returns(v));
      var second := AsyncActivity(computed, false, {});
      var late := Complete(second.task, computed.job.value, {});
      && second.task.running && second.task.dialog.value.showing
      && late.trace == [Callback(v), ShowProgress(false), End]
      && late.task.job == Some(Job(Running, false, Queued))
      && !late.task.running
      && !late.task.dialog.value.showing
      && !Progress.Shown(late.task.progress.value)
      && var done := PostExecute(Background(late.task, Returns(w)), {});
      && late.trace + done.trace
         == [Callback(v), ShowProgress(false), End, Callback(w), ShowProgress(false), End]
  {
    var first := AsyncActivity(SetDialog(Configured(target), resId), false, {});
    var computed := Background(first.task, Returns(v));
    var second := AsyncActivity(computed, false, {});
    assert second.task.progress == Some(Progress.Apply(Progress.Apply(target, true), true));
    Progress.ApplyIdempotent(target, true);
    Progress.ShowThenHide(target);
  }

  // ---------------------------------------------------------------------
  // Builder calls

  /** The default dialog is indeterminate; determinate() makes the dialog
      built at start determinate. The field's name is inverted, its effect is not. */
  lemma DeterminateDialog(resId: int, finishing: bool)
    requires resId != NoDialog
    ensures AsyncActivity(SetDialog(NewTask(), resId), finishing, {}).task.dialog.None? == finishing
    ensures !finishing ==> AsyncActivity(SetDialog(NewTask(), resId), false, {}).task.dialog.value.indeterminate
    ensures !finishing ==> !AsyncActivity(SetDeterminate(SetDialog(NewTask(), resId)), false, {}).task.dialog.value.indeterminate
  {
  }

  /** The dialog gets a cancel listener exactly when cancelable() was called,
      and that listener cancels the task. */
  lemma CancelableDialogCancelsTask(resId: int, cancelable: bool)
    requires resId != NoDialog
    ensures var t := if cancelable then SetCancelable(SetDialog(NewTask(), resId)) else SetDialog(NewTask(), resId);
      var s := AsyncActivity(t, false, {});
      && s.task.dialog.value.showing
      && s.task.dialog.value.cancelListener == cancelable
      && OnCancel(s.task).job.value.cancelled
  {
  }

  /** Builder calls made after the start still take effect: a foreground
      view attached while the task runs is made visible on completion. */
  lemma ViewSetAfterStartIsHonoured(t: Task, v: Option<int>)
    requires t.owner == Alive && t.job.Some? && t.job.value.phase == Queued
    ensures PostExecute(Background(SetView(t, Some(Progress.Gone)), Returns(v)), {}).task.view
      == Some(Progress.Visible)
  {
  }

  // ---------------------------------------------------------------------
  // Cancellation

  /** cancel() touches nothing but the AsyncTask's cancelled flag. */
  lemma CancelKeepsTask(t: Task)
    ensures var u := Cancel(t);
      && SameConfig(t, u) && u.owner == t.owner && u.running == t.running
      && u.progress == t.progress && u.dialog == t.dialog && u.view == t.view
  {
  }

  /** cancel() twice has the effect of cancel() once. */
  lemma CancelIdempotent(t: Task)
    ensures Cancel(Cancel(t)) == Cancel(t)
    ensures OnCancel(OnCancel(t)) == Cancel(t)
  {
  }

  // ---------------------------------------------------------------------
  // Interleavings between start and completion

  /** What may happen on the main thread while the worker runs: a cancel()
      call, or the owning activity starting to finish or being reclaimed. */
  datatype Intervention = CancelCall | OwnerFinishes | OwnerReclaimed

  /** The owner after an activity lifecycle event; a task without an owner
      reference is unaffected, and a reclaimed owner stays reclaimed. */
  function OwnerAfter(o: Owner, i: Intervention): (r: Owner)
    ensures o == NoOwner ==> r == NoOwner
    ensures i == CancelCall ==> r == o
    ensures o != NoOwner && i != CancelCall ==> (r == Finishing || r == Reclaimed)
  {
    match i
    case CancelCall => o
    case OwnerFinishes => if o.Alive? then Finishing else o
    case OwnerReclaimed => if o.NoOwner? then o else Reclaimed
  }

  function Intervene(t: Task, i: Intervention): Task {
    if i == CancelCall then Cancel(t) else t.(owner := OwnerAfter(t.owner, i))
  }

  function InterveneAll(t: Task, xs: seq<Intervention>): Task
    decreases |xs|
  {
    if xs == [] then t else InterveneAll(Intervene(t, xs[0]), xs[1..])
  }

  /** No interleaving touches the configuration, the progress state, the
      worker's phase, the AsyncTask status or the running flag. */
  lemma {:induction false} InterventionsKeepWork(t: Task, xs: seq<Intervention>)
    ensures var u := InterveneAll(t, xs);
      && SameConfig(t, u) && u.running == t.running
      && u.progress == t.progress && u.dialog == t.dialog && u.view == t.view
      && (u.job.Some? <==> t.job.Some?)
      && (u.job.Some? ==> u.job.value.phase == t.job.value.phase && u.job.value.status == t.job.value.status)
    decreases |xs|
  {
    if xs != [] {
      CancelKeepsTask(t);
      InterventionsKeepWork(Intervene(t, xs[0]), xs[1..]);
    }
  }

  /** Once the owner has begun to finish or been reclaimed, no later
      intervention makes it active again. */
  lemma {:induction false} OwnerEndIsSticky(t: Task, xs: seq<Intervention>)
    requires t.owner != NoOwner
    requires !IsActive(t) || exists k :: 0 <= k < |xs| && xs[k] != CancelCall
    ensures !IsActive(InterveneAll(t, xs))
    decreases |xs|
  {
    if xs != [] {
      var u := Intervene(t, xs[0]);
      assert u.owner != NoOwner;
      if IsActive(u) {
        var k :| 0 <= k < |xs| && xs[k] != CancelCall;
        assert k != 0;
        assert xs[1..][k - 1] == xs[k];
      }
      OwnerEndIsSticky(u, xs[1..]);
    }
  }

  /** A cancel() issued while the AsyncTask is running sticks. */
  lemma {:induction false} CancelIsSticky(t: Task, xs: seq<Intervention>)
    requires t.job.Some? && t.job.value.status == Running
    requires t.job.value.cancelled || CancelCall in xs
    ensures InterveneAll(t, xs).job.Some? && InterveneAll(t, xs).job.value.cancelled
    decreases |xs|
  {
    InterventionsKeepWork(t, xs);
    if xs != [] {
      var u := Intervene(t, xs[0]);
      assert u.job.Some? && u.job.value.status == Running;
      assert u.job.value.cancelled || CancelCall in xs[1..] by {
        if xs[0] != CancelCall {
          assert xs == [xs[0]] + xs[1..];
        }
      }
      CancelIsSticky(u, xs[1..]);
    }
  }

  /** cancel() on a finished task is a no-op, however often it is called. */
  lemma {:induction false} FinishedTaskIgnoresCancel(t: Task, xs: seq<Intervention>)
    requires t.job.Some? && t.job.value.status == Finished
    ensures InterveneAll(t, xs).job == t.job
    decreases |xs|
  {
    if xs != [] {
      FinishedTaskIgnoresCancel(Intervene(t, xs[0]), xs[1..]);
    }
  }

  /** If the owner begins to finish or is reclaimed at any point before
      completion, the onPostExecute body fires neither result hook; the hide
      and end() still run, but the hide returns early, so everything shown
      at start stays shown. When a cancel() in `xs` reached the running
      AsyncTask, the framework calls onCancelled instead and this body does
      not run at all. */
  lemma OwnerGoneRun(target: Progress.Target, work: Work, xs: seq<Intervention>)
    requires !target.Released?
    requires exists k :: 0 <= k < |xs| && xs[k] != CancelCall
    ensures var started := AsyncActivity(Configured(target), false, {});
      var pending := InterveneAll(Background(started.task, work), xs);
      && pending.job.Some? && pending.job.value.phase.Computed?
      && var done := PostExecute(pending, {});
      && done.trace == [ShowProgress(false), End]
      && done.raised.None? && !done.task.running
      && done.task.progress.Some? && Progress.Shown(done.task.progress.value)
      && done.task.view == Some(Progress.Invisible)
  {
    var started := AsyncActivity(Configured(target), false, {});
    var computed := Background(started.task, work);
    var pending := InterveneAll(computed, xs);
    InterventionsKeepWork(computed, xs);
    OwnerEndIsSticky(computed, xs);
    assert CompletionHook(pending.job.value, IsActive(pending)).None?;
  }
}

=== FILE: wrappers.dfy ===
/** Wrappers shared by the model: `Option` stands for a Java reference that
    may be null, `Result` for a call that may throw. */
module Wrappers {

  datatype Option<+T> = None | Some(value: T)

  datatype Result<+R, +E> = Success(value: R) | Failure(error: E)
}
